=== FILE: README.md ===
# untrusted.string in Dafny

A model of `untrusted.string` (class `String` in `untrusted/string.py`). This
is a boundary type that marks text coming from an untrusted source. A wrapper
holds exactly one raw `str`. Every operation on it yields one of three things:

- a harmless scalar;
- another wrapper;
- a collection whose elements are each wrapped.

The raw text leaves the boundary only two ways: the `value` accessor, or the
`escape` / `valid` / `validate` gateway, which names a sanitiser at each call
site.

Modules:

- `UntrustedString` holds most of the class:
  - `Untrusted(raw)` is the wrapper;
  - `PyValue` is the Python objects a caller can pass in;
  - `Error` is the exceptions raised;
  - it also models the initialiser, `value`, `+` from both sides,
    truthiness, `str()`, `repr()` and `reversed()`.
- `Classification` holds the three whitelists, the total `Classify` function
  over operation names, and the as-written table for the finding below.
- `Dispatch` is the attribute fallback for names not defined on the class. It
  unwraps arguments, runs the underlying `str` method, then applies the
  category's output policy: pass through, wrap, or wrap element by element.
  The `str` method is a function parameter `prim`.
- `Gateway` holds `escape`, `valid`, `validate` and the `/` shorthand. The
  sanitiser is a function parameter that returns a `PyValue` or raises an
  `Error`. The `assert isinstance(...)` checks become the `SanitizerContract`
  error.
- `Text` gives reference meanings for Python's `str.find`, `str.split(sep)`,
  `sep.join` and reversal. The lemmas use them to say what a result means.
- `Decimal` renders a length with `%d`, and `Wrappers` defines
  `Option`/`Result`.

`Text.Split` is fixed by its definition: it cuts again and again at the
leftmost occurrence that `Text.Find` reports in the text that remains, as
Python's `split` does, also for a separator that overlaps itself
(`"aaa".split("aa") == ["", "a"]`). Four lemmas state what that means:
- `Text.JoinSplit` proves that joining the parts with the separator gives back
  the text;
- `Text.SplitPartsAreSeparatorFree` proves that no part contains the separator;
- `Text.SplitCutsAtLeftmost` proves that every cut is at the leftmost
  occurrence in the text that remains;
- `Text.SplitUnique` proves the converse: any list of parts with these three
  properties is the split.

The underlying `str` methods and the sanitisers are parameters, not
definitions. Lemmas that need Python's behaviour for one call state it as a
hypothesis on the parameter (for example, that `split` splits as
`Text.Split` does).

## Model

| member | source | states |
|---|---|---|
| `UntrustedString.Construct` | untrusted/string.py:89-95 | succeeds exactly for a `str` or an existing wrapper. The stored text is the `str` itself, or the existing wrapper's text, never a wrapper of a wrapper. Anything else fails with the initialiser's TypeError. |
| `UntrustedString.ConstructIdempotent` | untrusted/string.py:89-91 | building from a built wrapper equals building from the original argument, so `String(String(s)).value == s` |
| `UntrustedString.Value` | untrusted/string.py:130-133 | `value` undoes construction: building a wrapper from the returned text gives back the same wrapper |
| `UntrustedString.Add` | untrusted/string.py:97-100 | `u + x` unwraps `x`. It succeeds exactly for a `str` or a wrapper, with raw text `u.value + x`. Any other modelled operand (an object without a `+` hook that accepts a `str`) is a TypeError from `str`'s `+`. |
| `UntrustedString.RAdd` | untrusted/string.py:102-105 | `x + u` for a `str` or wrapper `x` is a new wrapper whose raw text is `x + u.value`. Any other modelled `x` (an object without a `+` hook that accepts a `str`) fails. |
| `UntrustedString.AddMirrorsRAdd` | untrusted/string.py:97-105 | `a.__add__(b)` and `b.__radd__(a)` give the same wrapper, and wrapping the other operand does not change either result |
| `UntrustedString.Truth` | untrusted/string.py:107-109 | a wrapper is false exactly when its raw text is empty |
| `UntrustedString.TruthOfAdd` | untrusted/string.py:107-109 | a concatenation is truthy exactly when one of its operands is |
| `UntrustedString.Cast` | untrusted/string.py:124-125 | implicit `str()` conversion always fails with the cast error and its fixed message |
| `UntrustedString.CastRevealsNothing` | untrusted/string.py:124-125 | any two wrappers are indistinguishable through `str()` |
| `UntrustedString.Repr` | untrusted/string.py:127-128 | the length can be read back out of the representation |
| `UntrustedString.ReprRevealsOnlyLength` | untrusted/string.py:127-128 | two wrappers have the same representation if and only if their texts have the same length |
| `Decimal.ParseRender` | untrusted/string.py:128 | the `%d` text of the length parses back to the length |
| `UntrustedString.Reversed` | untrusted/string.py:111-113 | `reversed(u)` yields one wrapper per character, `|u.value|` of them, the last character first |
| `UntrustedString.ReversedSpellsReverse` | untrusted/string.py:111-113 | gluing the wrapped characters of `reversed(u)` together gives the reversed raw text |
| `Classification.ClassifyAsWritten` | untrusted/string.py:16-81 | the category of a name as the class lists it. Scalar, same-domain and composite each hold exactly for membership in their own list, and the converter is the one the list assigns. Every other name is unsupported. |
| `Classification.Classify` | untrusted/string.py:16-81 | the same total, fail-closed classification with the comparison names corrected (see Findings). The rest of the model uses this one. |
| `Classification.ComparisonsAsWritten` | untrusted/string.py:19-22 | as written, the methods behind `>` and `<` are scalars, but those behind `>=` and `<=` are unsupported |
| `Classification.ComparisonsCorrected` | untrusted/string.py:19-22 | with `__ge__`/`__le__`, every comparison operator's method is a scalar |
| `Dispatch.Invoke` | untrusted/string.py:86-87 | a name outside the whitelists fails with the unsupported-operation error, and only such a name does. A success has its category's shape. A scalar is the `str` method's own result on the unwrapped arguments. A same-domain result is the wrapper of it. |
| `Dispatch.InvokeIgnoresArgumentWrapping` | untrusted/string.py:86-87 | replacing `str` arguments by wrappers never changes the outcome of a dispatched call |
| `Dispatch.ScalarMatchesRaw` | untrusted/string.py:15-44 | a whitelisted scalar method returns exactly what the `str` method returns on the raw text |
| `Dispatch.SameDomainMatchesRaw` | untrusted/string.py:46-69 | for a same-domain method with a wrapped argument, the raw text of the result is what the `str` method gives on the raw texts |
| `Dispatch.WrapEach` | untrusted/string.py:71-81 | a composite result is re-wrapped element by element. It has the same length and order as the raw result, and fails as the initialiser does when an element is not a `str`. |
| `Dispatch.Convert` | untrusted/string.py:71-81 | converter output keeps length and order with every element wrapped. The tuple converter only ever yields 2- or 3-tuples. |
| `Dispatch.SplitThroughWhitelist` | untrusted/string.py:78 | `u.split(sep)`, with `sep` raw or wrapped, gives a list of wrappers whose texts are Python's split parts; joining them with `sep` rebuilds the raw text |
| `Dispatch.AddAgreesWithWhitelist` | untrusted/string.py:97-100 | the explicitly defined `__add__` and the whitelisted `__add__` succeed and fail together and give the same wrapper |
| `Gateway.Escape` | untrusted/string.py:151-154 | `escape(fn, ...)` succeeds exactly when `fn(value, ...)` returns a `str`, and then returns that exact `str`. An exception `fn` raises passes through unchanged. Any other return value fails the sanitiser assertion. |
| `Gateway.Valid` | untrusted/string.py:156-159 | `valid(fn, ...)` succeeds exactly when `fn(value, ...)` returns a `bool`, and then returns it. An exception `fn` raises passes through unchanged. Any other return value fails the assertion. |
| `Gateway.GatewaysAreCheckedValidate` | untrusted/string.py:151-163 | the meaning of `validate` (`Gateway.Validate`, which returns or raises whatever `fn` does). `escape` (`valid`) returns `s` (`b`) exactly when `validate` returns the `str` `s` (the `bool` `b`). When `validate` raises, both raise the same exception. |
| `Gateway.EscapeRevealsOnlySanitizerOutput` | untrusted/string.py:151-159 | for two wrappers that the sanitiser maps to the same result, `escape` and `valid` give the same results |
| `Gateway.StarArgs` | untrusted/string.py:143-147 | `*args` in the shorthand fails exactly for a non-iterable item. It gives a list's values, and a dict's keys in order. |
| `Gateway.StarStarArgs` | untrusted/string.py:147 | `**kwargs` in the shorthand succeeds exactly for a dict and gives its entries unchanged |
| `Gateway.Shorthand` | untrusted/string.py:139-149 | the error conditions of `u / x` in Python's evaluation order: a non-callable function is NotCallable; a grouping of another size fails to unpack; `*args` of a non-iterable fails before `**kwargs` of a non-mapping; a keyword naming `self` or `fn` clashes with `escape`'s own parameters; a non-callable first element fails only once the arguments are spread. The successful cases are `Gateway.ShorthandIsEscape`. |
| `Gateway.ShorthandIsEscape` | untrusted/string.py:139-149 | `u / fn` is `escape(fn)`, `u / (fn, args)` is `escape(fn, *args)`, and `u / (fn, args, kwargs)` is `escape(fn, *args, **kwargs)`, whether `args` is a list (its values are spread) or a dict (its keys are spread). Any other grouping size fails to unpack. |
| `Gateway.ShorthandOutputIsSanitized` | untrusted/string.py:139-154 | every `str` the shorthand returns is exactly what the operand's own function returned for the raw text and the operand's own positional and keyword arguments; the grouping then has size 2 or 3 and its arguments spread successfully |

## Findings

| source | as written | input that shows it | evidently intended | confidence | as-written member | corrected member |
|---|---|---|---|---|---|---|
| untrusted/string.py:19-22 | the scalar whitelist lists `__gte__` and `__lte__`, which are not `str` methods; the binding list at line 170 has the same misspelling (`"gte"`, `"lte"`) | `__ge__`, the method Python calls for `u >= v`, is on no list and classifies as unsupported, while `__gt__` is a scalar. In Python, `u >= v` never reaches the attribute fallback: the inherited `object.__ge__` returns NotImplemented and the operator raises its own TypeError. | `__ge__` and `__le__` in the whitelist, and `"ge"`, `"le"` in the binding list at line 170 | medium, not executed (the binding code in `untrusted.util` is not part of this model) | `Classification.ComparisonsAsWritten` | `Classification.ComparisonsCorrected` |

`Classification.Classify` replaces the two names. `Classification.ClassifyDiffersOnlyOnComparisons`
proves it agrees with the written table on every other name.

## Left out

- `untrusted.util` is not part of this model. That covers `_wrapped_method`, `_wrap_arg`, the three converters and `_createMagicPassthroughBindings`.
  - Argument normalisation is modelled only as "a wrapper becomes its raw text, anything else passes through", on top-level positional arguments.
  - A converter is modelled only as "construct each element".
  - The binding loop (untrusted/string.py:169-174) is not modelled. The operators it binds are reached through `Dispatch.Invoke` or the explicit functions.
  - `Dispatch.Invoke` nonetheless models what `_wrapped_method` does, and that model is inferred, not read. It takes the order of steps, the point where the unsupported error is raised (the call, rather than the attribute access), and `PrimitiveError` for a `str` method that raises from the whitelist comments (untrusted/string.py:15, 46, 71-73) and from the class's own explicit methods.
- The message and exception class of the unsupported-operation error are set in `untrusted.util`. The model uses the kind `UnsupportedOperation(name)`.
- `UntrustedString.Add`: an operand whose type defines `__radd__` accepting a `str` is not modelled. In Python, `self.value + other` (untrusted/string.py:100) calls that hook. A `str` result would then be wrapped, and any other result would raise the initialiser's TypeError. The model treats every non-`str`, non-wrapper operand as the TypeError of `str`'s `+`.
- `UntrustedString.RAdd`: an operand whose type defines `__add__` accepting a `str` is not modelled. In Python, `other + self.value` (untrusted/string.py:105) calls that hook, with the same two outcomes. The model treats every non-`str`, non-wrapper operand as failing.
- `__mod__` and `format_map` (untrusted/string.py:115-122): they depend on Python's `%` and `format_map` mini-languages, which are not modelled.
- Keyword arguments of dispatched calls are not modelled: `Dispatch.Invoke` takes positional arguments only.
- `UntrustedString.Reversed` gives a finite sequence. The lazy, single-pass iterator that `untrusted.iterator` wraps it in is not modelled.
- Python's `str` methods are the parameter `prim`, and concrete sanitisers such as `html.escape` are the parameter `fn`. Only `find`, `split` with an explicit separator, `join` and reversal get reference definitions, in `Text`. A sanitiser may return any object or raise any exception (`Raised`). Its exception, for example the TypeError for an unexpected keyword in the `(fn, args, kwargs)` form, passes through `escape`, `valid`, `validate` and the shorthand unchanged.
- `_valueType` (untrusted/string.py:135-137) and subclassing: there is one wrapper type, so "a result of the receiver's own type" is always `Untrusted`.
- Equality, ordering and hashing delegate to `str`. They are modelled only through the scalar category, with the `str` method as a parameter.
- `Gateway.Escape` and `Gateway.Valid` model the assertions as always checked. Under `python -O` the assertions are removed and the result type goes unchecked.
- `Gateway.Shorthand` takes two kinds of right operand:
  - a non-iterable object;
  - a sized grouping of callables, lists and dicts.
  A `str` or a wrapper used as the right operand, and unsized iterables, are not modelled.
- The `examples/` scripts and `setup.py`: console I/O demonstrations and packaging metadata.
- `Dispatch.Convert`: a tuple of the wrong arity is a defect of the `str` method, not of the caller. It is modelled as the `ShapeError` result rather than as a crash.

=== FILE: classification.dfy ===
/**
 * The closed allowlist that decides, for every operation name reached
 * through the wrapper's attribute fallback, what kind of result it gives.
 */
module Classification {

  /** How a composite result is re-wrapped element by element. */
  datatype Converter = ToIterator | ToTupleOfStrings | ToList

  /** The output policy of an operation name. */
  datatype Category =
    | Scalar                     // harmless result, returned as is
    | SameDomain                 // a str, wrapped again
    | Composite(conv: Converter) // a collection of str, each wrapped
    | Unsupported                // not on any whitelist

  /** Names whose result is a harmless scalar, as the class lists them. */
  const SafeMethodsAsWritten: set<string> := {
    "__eq__", "__gt__", "__gte__", "__len__", "__lt__", "__lte__", "__ne__",
    "__contains__", "__hash__", "count", "endswith", "find", "index",
    "isalnum", "isalpha", "isdecimal", "isdigit", "isidentifier", "islower",
    "isnumeric", "isprintable", "isspace", "istitle", "isupper", "rfind",
    "rindex", "startswith"
  }

  /** The scalar whitelist with the two comparison names spelled as Python
      spells them (`__ge__`, `__le__`); see ComparisonsAsWritten. */
  const SafeMethods: set<string> :=
    SafeMethodsAsWritten - {"__gte__", "__lte__"} + {"__ge__", "__le__"}

  /** Names whose result is another str. */
  const SimpleWrappedMethods: set<string> := {
    "__add__", "__mul__", "__rmul__", "__getitem__", "capitalize", "casefold",
    "center", "expandtabs", "format", "join", "ljust", "lower", "lstrip",
    "replace", "rstrip", "strip", "swapcase", "title", "upper", "zfill"
  }

  /** Names whose result is a collection of str, with its converter. */
  const ComplexWrappedMethods: map<string, Converter> := map[
    "__reversed__" := ToIterator,
    "partition" := ToTupleOfStrings,
    "rpartition" := ToTupleOfStrings,
    "split" := ToList,
    "rsplit" := ToList,
    "splitlines" := ToList
  ]

  /** The three whitelists never claim the same name. */
  lemma SafeAndSimpleDisjoint()
    ensures SafeMethodsAsWritten !! SimpleWrappedMethods
  {
  }

  lemma SafeAndComplexDisjoint()
    ensures SafeMethodsAsWritten !! ComplexWrappedMethods.Keys
  {
  }

  lemma SimpleAndComplexDisjoint()
    ensures SimpleWrappedMethods !! ComplexWrappedMethods.Keys
  {
  }

  /** The correction keeps the whitelists disjoint. */
  lemma CorrectedTablesDisjoint()
    ensures SafeMethods !! SimpleWrappedMethods
    ensures SafeMethods !! ComplexWrappedMethods.Keys
  {
    SafeAndSimpleDisjoint();
    SafeAndComplexDisjoint();
    assert {"__ge__", "__le__"} !! SimpleWrappedMethods;
    assert {"__ge__", "__le__"} !! ComplexWrappedMethods.Keys;
  }

  /** Classification by a given scalar whitelist and the two fixed ones. */
  function ClassifyWith(safe: set<string>, name: string): Category {
    if name in safe then Scalar
    else if name in SimpleWrappedMethods then SameDomain
    else if name in ComplexWrappedMethods then Composite(ComplexWrappedMethods[name])
    else Unsupported
  }

  /** The classification of the class as written. */
  function ClassifyAsWritten(name: string): (c: Category)
    ensures c == Scalar <==> name in SafeMethodsAsWritten
    ensures c == SameDomain <==> name in SimpleWrappedMethods
    ensures c.Composite? <==> name in ComplexWrappedMethods
    ensures c.Composite? ==> c.conv == ComplexWrappedMethods[name]
    ensures c == Unsupported <==>
      name !in SafeMethodsAsWritten && name !in SimpleWrappedMethods && name !in ComplexWrappedMethods
  {
    SafeAndSimpleDisjoint();
    SafeAndComplexDisjoint();
    SimpleAndComplexDisjoint();
    ClassifyWith(SafeMethodsAsWritten, name)
  }

  /** The classification the rest of the model uses: total, one category per
      name, fail-closed for every name outside the three whitelists. */
  function Classify(name: string): (c: Category)
    ensures c == Scalar <==> name in SafeMethods
    ensures c == SameDomain <==> name in SimpleWrappedMethods
    ensures c.Composite? <==> name in ComplexWrappedMethods
    ensures c.Composite? ==> c.conv == ComplexWrappedMethods[name]
    ensures c == Unsupported <==>
      name !in SafeMethods && name !in SimpleWrappedMethods && name !in ComplexWrappedMethods
  {
    CorrectedTablesDisjoint();
    SimpleAndComplexDisjoint();
    ClassifyWith(SafeMethods, name)
  }

  /** The corrected table differs from the written one only on the four
      comparison names. */
  lemma ClassifyDiffersOnlyOnComparisons(name: string)
    requires name !in {"__ge__", "__le__", "__gte__", "__lte__"}
    ensures Classify(name) == ClassifyAsWritten(name)
  {
  }

  /** Python's rich comparison operators. */
  datatype Comparison = Lt | Le | Eq | Ne | Gt | Ge

  /** The special method Python's data model calls for each operator. */
  function DunderOf(op: Comparison): string {
    match op
    case Lt => "__lt__"
    case Le => "__le__"
    case Eq => "__eq__"
    case Ne => "__ne__"
    case Gt => "__gt__"
    case Ge => "__ge__"
  }

  /** As written, `>` and `<` are whitelisted scalars but the methods behind
      `>=` and `<=` are not on any list, so they are unsupported. */
  lemma ComparisonsAsWritten()
    ensures ClassifyAsWritten(DunderOf(Gt)) == Scalar
    ensures ClassifyAsWritten(DunderOf(Lt)) == Scalar
    ensures ClassifyAsWritten(DunderOf(Ge)) == Unsupported
    ensures ClassifyAsWritten(DunderOf(Le)) == Unsupported
  {
  }

  /** With the corrected spelling every comparison operator is a scalar. */
  lemma ComparisonsCorrected(op: Comparison)
    ensures Classify(DunderOf(op)) == Scalar
  {
  }

  /** The categories of the names the dispatch lemmas use. */
  lemma KnownCategories()
    ensures Classify("split") == Composite(ToList)
    ensures Classify("__add__") == SameDomain
  {
  }
}

=== FILE: decimal.dfy ===
/** Decimal rendering of a natural number, as Python's `%d` prints it, and its parser. */
module Decimal {

  predicate IsDigit(c: char) {
    '0' <= c <= '9'
  }

  predicate AllDigits(s: string) {
    forall i :: 0 <= i < |s| ==> IsDigit(s[i])
  }

  function DigitValue(c: char): (d: nat)
    requires IsDigit(c)
    ensures d < 10
  {
    c as int - '0' as int
  }

  function DigitChar(d: nat): (c: char)
    requires d < 10
    ensures IsDigit(c) && DigitValue(c) == d
  {
    ('0' as int + d) as char
  }

  /** The canonical decimal text of `n`: at least one digit, no leading zero. */
  function Render(n: nat): (r: string)
    ensures |r| > 0 && AllDigits(r)
    ensures r[0] == '0' ==> n == 0
    decreases n
  {
    if n < 10 then [DigitChar(n)] else Render(n / 10) + [DigitChar(n % 10)]
  }

  /** The number a digit string denotes (most significant digit first). */
  function Parse(s: string): nat
    requires AllDigits(s)
  {
    if |s| == 0 then 0 else Parse(s[..|s| - 1]) * 10 + DigitValue(s[|s| - 1])
  }

  /** Parsing undoes rendering. */
  lemma {:induction false} ParseRender(n: nat)
    ensures Parse(Render(n)) == n
    decreases n
  {
    if n >= 10 {
      ParseRender(n / 10);
      var r := Render(n);
      assert r[..|r| - 1] == Render(n / 10);
    }
  }
}

=== FILE: dispatch.dfy ===
/**
 * The attribute fallback of the wrapper: an operation name not defined on
 * the class is looked up in the whitelists, its arguments are unwrapped, the
 * underlying str method runs on the raw text, and the result is passed
 * through, wrapped, or converted element by element according to the name's
 * category.
 */
module Dispatch {
  import opened Wrappers
  import opened UntrustedString
  import opened Classification
  import Text

  /** The underlying str method `name` run on a raw receiver with raw
      arguments: Some(result), or None when it raises. It is a parameter:
      Python's str implementation is outside the model. */
  type Primitive = (string, string, seq<PyValue>) -> Option<PyValue>

  /** What a dispatched call hands back to the caller. */
  datatype Outcome =
    | Plain(v: PyValue)
    | Tainted(u: Untrusted)
    | TaintedParts(kind: Converter, parts: seq<Untrusted>)

  /** The outcome has the shape its category promises. */
  predicate Respects(c: Category, o: Outcome) {
    match c
    case Scalar => o.Plain?
    case SameDomain => o.Tainted?
    case Composite(conv) => o.TaintedParts? && o.kind == conv
    case Unsupported => false
  }

  /** Normalisation of a positional argument list. */
  function NormalizeArgs(args: seq<PyValue>): (r: seq<PyValue>)
    ensures |r| == |args|
    ensures forall k :: 0 <= k < |r| ==> !r[k].Wrapped?
  {
    seq(|args|, k requires 0 <= k < |args| => Unwrap(args[k]))
  }

  /** Every str argument replaced by a wrapper around it. */
  function WrapStrings(args: seq<PyValue>): seq<PyValue> {
    seq(|args|, k requires 0 <= k < |args| =>
      if args[k].Str? then Wrapped(Untrusted(args[k].s)) else args[k])
  }

  /** Normalisation erases the difference between a str and its wrapper. */
  lemma NormalizeErasesWrapping(args: seq<PyValue>)
    ensures NormalizeArgs(WrapStrings(args)) == NormalizeArgs(args)
  {
    var a := NormalizeArgs(WrapStrings(args));
    var b := NormalizeArgs(args);
    assert forall k :: 0 <= k < |a| ==> a[k] == b[k];
  }

  /** Re-wraps each element of a composite result, failing as the
      initialiser does on an element that is not a str. */
  function WrapEach(items: seq<PyValue>): (r: Result<seq<Untrusted>, Error>)
    ensures r.Ok? <==> forall k :: 0 <= k < |items| ==> items[k].Str? || items[k].Wrapped?
    ensures r.Ok? ==> |r.value| == |items|
    ensures r.Ok? ==> forall k :: 0 <= k < |items| ==> Construct(items[k]) == Ok(r.value[k])
    ensures r.Err? ==> r.error == ConstructionError
  {
    if |items| == 0 then Ok([])
    else
      var head :- Construct(items[0]);
      var tail :- WrapEach(items[1..]);
      assert forall k :: 1 <= k < |items| ==> items[k] == items[1..][k - 1];
      Ok([head] + tail)
  }

  /** A converter applied to the raw composite result. The tuple converter
      takes the 2- or 3-tuples of the partition family only. */
  function Convert(conv: Converter, v: PyValue): (r: Result<Outcome, Error>)
    ensures r.Ok? ==> v.List? && r.value.TaintedParts? && r.value.kind == conv
    ensures r.Ok? ==> |r.value.parts| == |v.items|
    ensures r.Ok? ==> forall k :: 0 <= k < |v.items| ==> Construct(v.items[k]) == Ok(r.value.parts[k])
    ensures r.Ok? && conv == ToTupleOfStrings ==> |r.value.parts| == 2 || |r.value.parts| == 3
    ensures v.List? && (conv != ToTupleOfStrings || |v.items| == 2 || |v.items| == 3) ==>
      (r.Ok? <==> forall k :: 0 <= k < |v.items| ==> v.items[k].Str? || v.items[k].Wrapped?)
  {
    if !v.List? then Err(ShapeError)
    else if conv == ToTupleOfStrings && |v.items| != 2 && |v.items| != 3 then Err(ShapeError)
    else
      var parts :- WrapEach(v.items);
      Ok(TaintedParts(conv, parts))
  }

  /** The output policy of a category applied to the raw result. */
  function ApplyPolicy(c: Category, v: PyValue): (r: Result<Outcome, Error>)
    requires c != Unsupported
    ensures r.Ok? ==> Respects(c, r.value)
    ensures c == Scalar ==> r == Ok(Plain(v))
    ensures c == SameDomain ==> (r.Ok? <==> v.Str? || v.Wrapped?)
    ensures c == SameDomain && r.Ok? ==> Construct(v) == Ok(r.value.u)
    ensures r.Err? ==> !r.error.UnsupportedOperation?
  {
    match c
    case Scalar => Ok(Plain(v))
    case SameDomain =>
      (match Construct(v)
       case Ok(w) => Ok(Tainted(w))
       case Err(e) => Err(e))
    case Composite(conv) => Convert(conv, v)
  }

  /** A call `u.name(*args)` that reaches the whitelist. */
  function Invoke(u: Untrusted, name: string, args: seq<PyValue>, prim: Primitive): (r: Result<Outcome, Error>)
    ensures r == Err(UnsupportedOperation(name)) <==> Classify(name) == Unsupported
    ensures r.Ok? ==> Respects(Classify(name), r.value)
    ensures r.Ok? ==> prim(name, u.raw, NormalizeArgs(args)).Some?
    ensures r.Ok? && Classify(name) == Scalar ==>
      r.value == Plain(prim(name, u.raw, NormalizeArgs(args)).value)
    ensures r.Ok? && Classify(name) == SameDomain ==>
      Construct(prim(name, u.raw, NormalizeArgs(args)).value) == Ok(r.value.u)
  {
    var c := Classify(name);
    if c == Unsupported then Err(UnsupportedOperation(name))
    else
      match prim(name, u.raw, NormalizeArgs(args))
      case None => Err(PrimitiveError)
      case Some(v) => ApplyPolicy(c, v)
  }

  /** A composite operation hands the primitive's result to its converter. */
  lemma InvokeComposite(u: Untrusted, name: string, args: seq<PyValue>, prim: Primitive, conv: Converter, v: PyValue)
    requires Classify(name) == Composite(conv)
    requires prim(name, u.raw, NormalizeArgs(args)) == Some(v)
    ensures Invoke(u, name, args, prim) == Convert(conv, v)
  {
  }

  /** Wrapping the arguments never changes what a dispatched call does. */
  lemma InvokeIgnoresArgumentWrapping(u: Untrusted, name: string, args: seq<PyValue>, prim: Primitive)
    ensures Invoke(u, name, WrapStrings(args), prim) == Invoke(u, name, args, prim)
  {
    NormalizeErasesWrapping(args);
  }

  /** A same-domain operation on a wrapper with a wrapped argument gives the
      wrapper of what the str operation gives on the raw texts. */
  lemma SameDomainMatchesRaw(s: string, name: string, a: string, t: string, prim: Primitive)
    requires Classify(name) == SameDomain
    requires prim(name, s, [Str(a)]) == Some(Str(t))
    ensures Invoke(Untrusted(s), name, [Wrapped(Untrusted(a))], prim) == Ok(Tainted(Untrusted(t)))
  {
    assert NormalizeArgs([Wrapped(Untrusted(a))]) == [Str(a)];
  }

  /** A scalar operation returns the str operation's own result. */
  lemma ScalarMatchesRaw(u: Untrusted, name: string, args: seq<PyValue>, prim: Primitive, v: PyValue)
    requires Classify(name) == Scalar
    requires prim(name, u.raw, NormalizeArgs(args)) == Some(v)
    ensures Invoke(u, name, args, prim) == Ok(Plain(v))
  {
  }

  /** The str values of a list, in order. */
  function StrList(parts: seq<string>): (r: seq<PyValue>)
    ensures |r| == |parts|
    ensures forall k :: 0 <= k < |parts| ==> r[k] == Str(parts[k])
  {
    seq(|parts|, k requires 0 <= k < |parts| => Str(parts[k]))
  }

  /** Converting a list of str wraps each one, in order. */
  lemma ConvertStrList(conv: Converter, parts: seq<string>)
    requires conv != ToTupleOfStrings
    ensures Convert(conv, List(StrList(parts))).Ok?
    ensures Raws(Convert(conv, List(StrList(parts))).value.parts) == parts
  {
    var r := Convert(conv, List(StrList(parts)));
    assert forall k :: 0 <= k < |parts| ==> Construct(Str(parts[k])) == Ok(r.value.parts[k]);
  }

  /** `u.split(sep)` through the whitelist, given that the underlying
      method splits as Python's does: a list of wrappers, one per part, that
      joined with the separator rebuild the raw text. */
  lemma SplitThroughWhitelist(u: Untrusted, sepArg: PyValue, sep: string, prim: Primitive)
    requires |sep| > 0
    requires sepArg == Str(sep) || sepArg == Wrapped(Untrusted(sep))
    requires prim("split", u.raw, [Str(sep)]) == Some(List(StrList(Text.Split(u.raw, sep))))
    ensures var r := Invoke(u, "split", [sepArg], prim);
      && r.Ok? && r.value.kind == ToList
      && Raws(r.value.parts) == Text.Split(u.raw, sep)
      && Text.Join(sep, Raws(r.value.parts)) == u.raw
  {
    assert NormalizeArgs([sepArg]) == [Str(sep)];
    KnownCategories();
    var parts := Text.Split(u.raw, sep);
    InvokeComposite(u, "split", [sepArg], prim, ToList, List(StrList(parts)));
    ConvertStrList(ToList, parts);
    Text.JoinSplit(u.raw, sep);
  }

  /** The explicitly defined `__add__` and the whitelisted `__add__` agree,
      given that the underlying str `+` concatenates str operands and raises
      on any other. */
  lemma AddAgreesWithWhitelist(u: Untrusted, other: PyValue, prim: Primitive)
    requires Unwrap(other).Str? ==> prim("__add__", u.raw, [Unwrap(other)]) == Some(Str(u.raw + Unwrap(other).s))
    requires !Unwrap(other).Str? ==> prim("__add__", u.raw, [Unwrap(other)]) == None
    ensures Add(u, other).Ok? <==> Invoke(u, "__add__", [other], prim).Ok?
    ensures Add(u, other).Ok? ==> Invoke(u, "__add__", [other], prim).value == Tainted(Add(u, other).value)
    ensures Add(u, other).Err? ==> Invoke(u, "__add__", [other], prim).error == Add(u, other).error
  {
    assert NormalizeArgs([other]) == [Unwrap(other)];
    KnownCategories();
  }
}

=== FILE: gateway.dfy ===
/**
 * The sanctioned exit from the trust boundary: `escape`, `valid` and
 * `validate` hand the raw text to a caller-named function, and the `/`
 * shorthand is `escape` written inline.
 */
module Gateway {
  import opened Wrappers
  import opened UntrustedString

  /** The extra arguments of a call: positional, then keyword (a Python
      dict keeps its insertion order, so keywords are an ordered list). */
  datatype Args = Args(positional: seq<PyValue>, keywords: seq<(string, PyValue)>)

  const NoArgs := Args([], [])

  /** A sanitiser or validator, called as `fn(raw, *args, **kwargs)`: the
      object it returns, or the exception it raises. It is a parameter:
      concrete sanitisers such as `html.escape` are outside the model. */
  type Sanitizer = (string, Args) -> Result<PyValue, Error>

  /** `escape`: the sanitiser's result, which must be a str; an exception
      the sanitiser raises passes through unchanged. */
  function Escape(self: Untrusted, fn: Sanitizer, args: Args): (r: Result<string, Error>)
    ensures r.Ok? <==> fn(self.raw, args).Ok? && fn(self.raw, args).value.Str?
    ensures r.Ok? ==> r.value == fn(self.raw, args).value.s
    ensures fn(self.raw, args).Err? ==> r == Err(fn(self.raw, args).error)
    ensures fn(self.raw, args).Ok? && !fn(self.raw, args).value.Str? ==> r == Err(SanitizerContract)
  {
    var result :- fn(self.raw, args);
    if result.Str? then Ok(result.s) else Err(SanitizerContract)
  }

  /** `valid`: the validator's result, which must be a bool; an exception
      the validator raises passes through unchanged. */
  function Valid(self: Untrusted, fn: Sanitizer, args: Args): (r: Result<bool, Error>)
    ensures r.Ok? <==> fn(self.raw, args).Ok? && fn(self.raw, args).value.Bool?
    ensures r.Ok? ==> r.value == fn(self.raw, args).value.b
    ensures fn(self.raw, args).Err? ==> r == Err(fn(self.raw, args).error)
    ensures fn(self.raw, args).Ok? && !fn(self.raw, args).value.Bool? ==> r == Err(SanitizerContract)
  {
    var result :- fn(self.raw, args);
    if result.Bool? then Ok(result.b) else Err(SanitizerContract)
  }

  /** `validate`: whatever the function returns or raises, unchecked. */
  function Validate(self: Untrusted, fn: Sanitizer, args: Args): Result<PyValue, Error> {
    fn(self.raw, args)
  }

  /** `escape` and `valid` are `validate` with a check on the result type:
      they succeed exactly when `validate` yields a str (a bool), and then
      with the same value; an exception `validate` raises, they raise too. */
  lemma GatewaysAreCheckedValidate(self: Untrusted, fn: Sanitizer, args: Args)
    ensures forall s :: Escape(self, fn, args) == Ok(s) <==> Validate(self, fn, args) == Ok(Str(s))
    ensures forall b :: Valid(self, fn, args) == Ok(b) <==> Validate(self, fn, args) == Ok(Bool(b))
    ensures Validate(self, fn, args).Err? ==>
      Escape(self, fn, args) == Err(Validate(self, fn, args).error)
      && Valid(self, fn, args) == Err(Validate(self, fn, args).error)
  {
  }

  /** The gateway passes on what the sanitiser computes and nothing more:
      two wrappers the sanitiser cannot tell apart escape identically. */
  lemma EscapeRevealsOnlySanitizerOutput(a: Untrusted, b: Untrusted, fn: Sanitizer, args: Args)
    requires fn(a.raw, args) == fn(b.raw, args)
    ensures Escape(a, fn, args) == Escape(b, fn, args)
    ensures Valid(a, fn, args) == Valid(b, fn, args)
  {
  }

  /** The object in the function position of the shorthand. */
  datatype Callee = Function(fn: Sanitizer) | Uncallable

  /** One element of a grouping given to the shorthand. */
  datatype Item =
    | FnItem(callee: Callee)                   // a callable, or a non-iterable object
    | SeqItem(values: seq<PyValue>)            // a list or tuple
    | MapItem(entries: seq<(string, PyValue)>) // a dict

  /** The right operand of `self / x`: a non-iterable object, or a sized
      iterable (tuple or list) of items. */
  datatype Operand = Single(callee: Callee) | Grouping(items: seq<Item>)

  /** The function position of a grouping: only a callable item is called. */
  function CalleeOf(item: Item): Callee {
    if item.FnItem? then item.callee else Uncallable
  }

  /** `*item`: a list gives its values, a dict its keys. */
  function StarArgs(item: Item): (r: Result<seq<PyValue>, Error>)
    ensures r.Err? <==> item.FnItem?
    ensures item.SeqItem? ==> r == Ok(item.values)
    ensures item.MapItem? ==> r.Ok? && |r.value| == |item.entries|
    ensures item.MapItem? ==> forall k :: 0 <= k < |item.entries| ==> r.value[k] == Str(item.entries[k].0)
  {
    match item
    case FnItem(_) => Err(NotIterable)
    case SeqItem(vs) => Ok(vs)
    case MapItem(es) => Ok(seq(|es|, k requires 0 <= k < |es| => Str(es[k].0)))
  }

  /** `**item`: only a dict can be spread into keyword arguments. */
  function StarStarArgs(item: Item): (r: Result<seq<(string, PyValue)>, Error>)
    ensures r.Ok? <==> item.MapItem?
    ensures r.Ok? ==> r.value == item.entries
  {
    if item.MapItem? then Ok(item.entries) else Err(NotMapping)
  }

  /** `escape` with an object in the function position. */
  function EscapeCall(self: Untrusted, callee: Callee, args: Args): (r: Result<string, Error>)
    ensures callee.Uncallable? ==> r == Err(NotCallable)
    ensures callee.Function? ==> r == Escape(self, callee.fn, args)
  {
    match callee
    case Uncallable => Err(NotCallable)
    case Function(fn) => Escape(self, fn, args)
  }

  /** A keyword list that names a parameter `escape` already binds
      positionally (`self` or `fn`). */
  predicate NamesBoundParameter(keywords: seq<(string, PyValue)>) {
    exists k :: 0 <= k < |keywords| && keywords[k].0 in {"self", "fn"}
  }

  /** `self / x`. The grouping is unpacked first, then `*args` and
      `**kwargs` are spread, then `escape` is bound and calls the function. */
  function Shorthand(self: Untrusted, x: Operand): (r: Result<string, Error>)
    ensures x.Single? && x.callee.Uncallable? ==> r == Err(NotCallable)
    ensures x.Grouping? && |x.items| != 2 && |x.items| != 3 ==> r == Err(UnpackMismatch)
    ensures x.Grouping? && (|x.items| == 2 || |x.items| == 3) && x.items[1].FnItem? ==> r == Err(NotIterable)
    ensures x.Grouping? && |x.items| == 3 && !x.items[1].FnItem? && !x.items[2].MapItem? ==> r == Err(NotMapping)
    ensures (&& x.Grouping? && |x.items| == 3 && !x.items[1].FnItem? && x.items[2].MapItem?
             && NamesBoundParameter(x.items[2].entries)) ==> r == Err(DuplicateArgument)
    ensures (&& x.Grouping? && (|x.items| == 2 || |x.items| == 3) && !x.items[1].FnItem?
             && CalleeOf(x.items[0]).Uncallable?
             && (|x.items| == 3 ==> x.items[2].MapItem? && !NamesBoundParameter(x.items[2].entries)))
            ==> r == Err(NotCallable)
  {
    match x
    case Single(callee) => EscapeCall(self, callee, NoArgs)
    case Grouping(items) =>
      if |items| == 2 then
        var positional :- StarArgs(items[1]);
        EscapeCall(self, CalleeOf(items[0]), Args(positional, []))
      else if |items| == 3 then
        var positional :- StarArgs(items[1]);
        var keywords :- StarStarArgs(items[2]);
        if NamesBoundParameter(keywords) then Err(DuplicateArgument)
        else EscapeCall(self, CalleeOf(items[0]), Args(positional, keywords))
      else Err(UnpackMismatch)
  }

  /** The shorthand is `escape` in each of its three forms, whatever sits in
      the argument position (a list spreads its values, a dict its keys),
      and any other grouping size fails to unpack. */
  lemma ShorthandIsEscape(self: Untrusted, fn: Sanitizer, argsItem: Item, kwItem: Item)
    ensures Shorthand(self, Single(Function(fn))) == Escape(self, fn, NoArgs)
    ensures StarArgs(argsItem).Ok? ==>
      Shorthand(self, Grouping([FnItem(Function(fn)), argsItem]))
         == Escape(self, fn, Args(StarArgs(argsItem).value, []))
    ensures StarArgs(argsItem).Ok? && kwItem.MapItem? && !NamesBoundParameter(kwItem.entries) ==>
      Shorthand(self, Grouping([FnItem(Function(fn)), argsItem, kwItem]))
         == Escape(self, fn, Args(StarArgs(argsItem).value, kwItem.entries))
    ensures forall items: seq<Item> :: |items| != 2 && |items| != 3 ==>
      Shorthand(self, Grouping(items)) == Err(UnpackMismatch)
  {
  }

  /** Every str the shorthand hands out is what the operand's own function
      returned for the raw text and the operand's own arguments: nothing
      else crosses the boundary. */
  lemma ShorthandOutputIsSanitized(self: Untrusted, x: Operand, s: string)
    requires Shorthand(self, x) == Ok(s)
    ensures x.Single? ==> x.callee.Function? && x.callee.fn(self.raw, NoArgs) == Ok(Str(s))
    ensures x.Grouping? ==>
      && (|x.items| == 2 || |x.items| == 3)
      && CalleeOf(x.items[0]).Function?
      && StarArgs(x.items[1]).Ok?
      && (|x.items| == 3 ==> StarStarArgs(x.items[2]).Ok?)
      && CalleeOf(x.items[0]).fn(self.raw,
           Args(StarArgs(x.items[1]).value,
                if |x.items| == 3 then StarStarArgs(x.items[2]).value else [])) == Ok(Str(s))
  {
    match x
    case Single(callee) =>
    case Grouping(items) =>
      assert |items| == 2 || |items| == 3;
      assert StarArgs(items[1]).Ok?;
      if |items| == 3 {
        assert StarStarArgs(items[2]).Ok?;
      }
  }
}

=== FILE: text.dfy ===
/**
 * Reference semantics of the few Python `str` operations the model states
 * properties about: `find`, `split` with an explicit separator, `join`, and
 * reversal. These are the underlying primitive operations, not part of the
 * wrapper; they let the wrapper's lemmas say what its results mean.
 */
module Text {
  import opened Wrappers

  /** `sep` occurs in `s` starting at index `i`. */
  predicate OccursAt(s: string, sep: string, i: int) {
    0 <= i && i + |sep| <= |s| && s[i..i + |sep|] == sep
  }

  lemma OccursAtShift(s: string, sep: string, i: int)
    requires |s| > 0 && 0 <= i
    ensures OccursAt(s[1..], sep, i) <==> OccursAt(s, sep, i + 1)
  {
    if 0 <= i && i + |sep| <= |s| - 1 {
      assert s[1..][i..i + |sep|] == s[i + 1..i + 1 + |sep|];
    }
  }

  /** Python's `s.find(sep)`: the leftmost occurrence, or None for -1. */
  function Find(s: string, sep: string): (r: Option<nat>)
    ensures r.Some? ==> OccursAt(s, sep, r.value)
    ensures r.Some? ==> forall j :: 0 <= j < r.value ==> !OccursAt(s, sep, j)
    ensures r.None? ==> forall j :: !OccursAt(s, sep, j)
    decreases |s|
  {
    if |s| < |sep| then None
    else if s[..|sep|] == sep then Some(0)
    else
      assert !OccursAt(s, sep, 0);
      match Find(s[1..], sep)
      case Some(i) =>
        OccursAtShift(s, sep, i);
        forall j | 1 <= j < i + 1
          ensures !OccursAt(s, sep, j)
        {
          OccursAtShift(s, sep, j - 1);
        }
        Some(i + 1)
      case None =>
        forall j | 1 <= j
          ensures !OccursAt(s, sep, j)
        {
          OccursAtShift(s, sep, j - 1);
        }
        None
  }

  /** Python's `s.split(sep)` for a non-empty separator. */
  function Split(s: string, sep: string): (parts: seq<string>)
    requires |sep| > 0
    ensures |parts| > 0
    decreases |s|
  {
    match Find(s, sep)
    case None => [s]
    case Some(i) => [s[..i]] + Split(s[i + |sep|..], sep)
  }

  /** Every cut of a split is at the leftmost occurrence in the text that
      remains: the first part ends where `find` first sees the separator,
      and so on for each later part. */
  lemma {:induction false} SplitCutsAtLeftmost(s: string, sep: string)
    requires |sep| > 0
    ensures |Split(s, sep)| > 1 ==> Find(s, sep) == Some(|Split(s, sep)[0]|)
    ensures forall k :: 0 <= k < |Split(s, sep)| - 1 ==>
      Find(Join(sep, Split(s, sep)[k..]), sep) == Some(|Split(s, sep)[k]|)
    decreases |s|
  {
    match Find(s, sep)
    case None =>
    case Some(i) =>
      var rest := s[i + |sep|..];
      var parts := Split(s, sep);
      SplitCutsAtLeftmost(rest, sep);
      JoinSplit(s, sep);
      assert parts[1..] == Split(rest, sep);
      forall k | 0 <= k < |parts| - 1
        ensures Find(Join(sep, parts[k..]), sep) == Some(|parts[k]|)
      {
        if k == 0 {
          assert parts[0..] == parts;
        } else {
          assert parts[k..] == Split(rest, sep)[k - 1..];
        }
      }
  }

  /** Python's `sep.join(parts)`. */
  function Join(sep: string, parts: seq<string>): string {
    if |parts| == 0 then ""
    else if |parts| == 1 then parts[0]
    else parts[0] + sep + Join(sep, parts[1..])
  }

  /** Joining the parts of a split with the same separator gives back the text. */
  lemma {:induction false} JoinSplit(s: string, sep: string)
    requires |sep| > 0
    ensures Join(sep, Split(s, sep)) == s
    decreases |s|
  {
    match Find(s, sep)
    case None =>
    case Some(i) =>
      var rest := s[i + |sep|..];
      JoinSplit(rest, sep);
      assert Split(s, sep)[1..] == Split(rest, sep);
      assert s == s[..i] + sep + rest;
  }

  /** No part of a split contains the separator. */
  lemma {:induction false} SplitPartsAreSeparatorFree(s: string, sep: string)
    requires |sep| > 0
    ensures forall k :: 0 <= k < |Split(s, sep)| ==> Find(Split(s, sep)[k], sep).None?
    decreases |s|
  {
    match Find(s, sep)
    case None =>
    case Some(i) =>
      var rest := s[i + |sep|..];
      SplitPartsAreSeparatorFree(rest, sep);
      forall j | OccursAt(s[..i], sep, j)
        ensures false
      {
        assert s[..i][j..j + |sep|] == s[j..j + |sep|];
        assert OccursAt(s, sep, j);
      }
      assert Find(s[..i], sep).None?;
      assert Split(s, sep)[1..] == Split(rest, sep);
  }

  /** `Split` is the only way to cut `s` into separator-free parts that join
      back to `s` with every cut at the leftmost occurrence in the text that
      remains; with JoinSplit, SplitPartsAreSeparatorFree and
      SplitCutsAtLeftmost this characterises the split exactly, also for a
      separator that overlaps itself. */
  lemma {:induction false} SplitUnique(s: string, sep: string, parts: seq<string>)
    requires |sep| > 0 && |parts| > 0 && Join(sep, parts) == s
    requires forall k :: 0 <= k < |parts| ==> Find(parts[k], sep).None?
    requires forall k :: 0 <= k < |parts| - 1 ==> Find(Join(sep, parts[k..]), sep) == Some(|parts[k]|)
    ensures parts == Split(s, sep)
    decreases |parts|
  {
    if |parts| == 1 {
    } else {
      var tail := parts[1..];
      assert parts[0..] == parts;
      assert Find(s, sep) == Some(|parts[0]|);
      assert s == parts[0] + sep + Join(sep, tail);
      assert s[..|parts[0]|] == parts[0];
      assert s[|parts[0]| + |sep|..] == Join(sep, tail);
      forall k | 0 <= k < |tail| - 1
        ensures Find(Join(sep, tail[k..]), sep) == Some(|tail[k]|)
      {
        assert tail[k..] == parts[k + 1..];
      }
      SplitUnique(Join(sep, tail), sep, tail);
    }
  }

  /** Python's `s[::-1]`, peeling the first character. */
  function Reverse(s: string): (r: string)
    ensures |r| == |s|
    ensures forall k :: 0 <= k < |s| ==> r[k] == s[|s| - 1 - k]
  {
    if |s| == 0 then "" else Reverse(s[1..]) + [s[0]]
  }
}

=== FILE: untrusted_string.dfy ===
/**
 * The untrusted string wrapper (class `String`, alias `string`): an
 * immutable holder of exactly one raw `str`. Every operation on it yields a
 * harmless scalar, another wrapper, or a collection of wrappers; the raw
 * text leaves only through `Value` or the gateway in module Gateway.
 */
module UntrustedString {
  import opened Wrappers
  import Decimal
  import Text

  /** The wrapper. Its raw text is fixed when it is built. */
  datatype Untrusted = Untrusted(raw: string)

  /** The Python objects a caller can hand to the wrapper. Lists, tuples and
      iterators are all `List`; `Opaque` is any other object whose type
      defines no `+` hook (`__add__`/`__radd__`) that accepts a str. */
  datatype PyValue =
    | Str(s: string)
    | Wrapped(u: Untrusted)
    | Bool(b: bool)
    | Int(i: int)
    | List(items: seq<PyValue>)
    | NoneValue
    | Opaque

  /** What the wrapper and its gateway raise. */
  datatype Error =
    | ConstructionError            // TypeError from the initialiser
    | CastError                    // TypeError from an implicit str() conversion
    | UnsupportedOperation(name: string)  // a name outside the three whitelists
    | PrimitiveError               // the underlying str operation raised
    | ShapeError                   // a composite result a converter cannot take
    | SanitizerContract            // AssertionError: a sanitiser returned the wrong type
    | NotCallable                  // TypeError: the shorthand's function is not callable
    | NotIterable                  // TypeError: `*args` of a non-iterable
    | NotMapping                   // TypeError: `**kwargs` of a non-mapping
    | DuplicateArgument            // TypeError: `**kwargs` names `self` or `fn` again
    | UnpackMismatch               // ValueError: the shorthand's grouping has the wrong size
    | Raised(exception: string)    // an exception raised by caller-supplied code, e.g. a sanitiser

  const InitErrorMessage := "Initialiser for an untrusted string must be an instance of str or untrusted.string"
  const CastErrorMessage := "Implicit cast to/of untrusted.string is not allowed"
  const ReprPrefix := "<untrusted.string of length "
  const ReprSuffix := ">"

  /** The message text the class attaches to the errors it raises itself. */
  function Message(e: Error): Option<string> {
    match e
    case ConstructionError => Some(InitErrorMessage)
    case CastError => Some(CastErrorMessage)
    case _ => None
  }

  /** Argument normalisation for one argument: a wrapper becomes its raw
      text, anything else passes through unchanged. */
  function Unwrap(v: PyValue): (r: PyValue)
    ensures !r.Wrapped?
    ensures r.Str? <==> v.Str? || v.Wrapped?
    ensures v.Wrapped? ==> r == Str(v.u.raw)
  {
    if v.Wrapped? then Str(v.u.raw) else v
  }

  /** The initialiser: a wrapper is unwrapped, then the value must be a str. */
  function Construct(v: PyValue): (r: Result<Untrusted, Error>)
    ensures r.Ok? <==> v.Str? || v.Wrapped?
    ensures v.Str? ==> r == Ok(Untrusted(v.s))
    ensures v.Wrapped? ==> r == Ok(v.u)
    ensures r.Err? ==> r.error == ConstructionError
  {
    var value := Unwrap(v);
    if value.Str? then Ok(Untrusted(value.s)) else Err(ConstructionError)
  }

  /** The read-only `value` property: the raw text, unsanitised. It undoes
      construction: building a wrapper from it gives the same wrapper back. */
  function Value(self: Untrusted): (r: string)
    ensures Construct(Str(r)) == Ok(self)
    ensures Construct(Wrapped(self)) == Construct(Str(r))
  {
    self.raw
  }

  /** Construction never double-wraps: building from a built wrapper is the
      same as building from the original argument, and reading the value of
      a wrapper built from `s` gives `s`. */
  lemma ConstructIdempotent(v: PyValue)
    requires Construct(v).Ok?
    ensures Construct(Wrapped(Construct(v).value)) == Construct(v)
    ensures v.Str? ==> Value(Construct(Wrapped(Construct(v).value)).value) == v.s
  {
  }

  /** `self + other`: the other operand is unwrapped, then concatenated after
      the raw text, and the result is wrapped again. */
  function Add(self: Untrusted, other: PyValue): (r: Result<Untrusted, Error>)
    ensures r.Ok? <==> other.Str? || other.Wrapped?
    ensures other.Str? ==> r == Ok(Untrusted(self.raw + other.s))
    ensures other.Wrapped? ==> r == Ok(Untrusted(self.raw + other.u.raw))
    ensures r.Err? ==> r.error == PrimitiveError
  {
    match Unwrap(other)
    case Str(t) => Construct(Str(self.raw + t))
    case _ => Err(PrimitiveError)
  }

  /** `other + self` with `self` on the right. */
  function RAdd(self: Untrusted, other: PyValue): (r: Result<Untrusted, Error>)
    ensures r.Ok? <==> other.Str? || other.Wrapped?
    ensures other.Str? ==> r == Ok(Untrusted(other.s + self.raw))
    ensures other.Wrapped? ==> r == Ok(Untrusted(other.u.raw + self.raw))
    ensures r.Err? ==> r.error == PrimitiveError
  {
    match Unwrap(other)
    case Str(t) => Construct(Str(t + self.raw))
    case _ => Err(PrimitiveError)
  }

  /** `a + b` resolved through `a.__add__` and through `b.__radd__` agree,
      and wrapping the other operand does not change the result. */
  lemma AddMirrorsRAdd(a: Untrusted, b: Untrusted)
    ensures Add(a, Wrapped(b)) == RAdd(b, Wrapped(a))
    ensures Add(a, Wrapped(b)) == Add(a, Str(b.raw))
    ensures RAdd(b, Wrapped(a)) == RAdd(b, Str(a.raw))
  {
  }

  /** Truthiness: false exactly for the empty string. */
  function Truth(self: Untrusted): (r: bool)
    ensures r <==> self.raw != ""
  {
    |self.raw| != 0
  }

  /** A concatenation is truthy exactly when one of its operands is. */
  lemma TruthOfAdd(a: Untrusted, b: Untrusted)
    ensures Truth(Add(a, Wrapped(b)).value) <==> Truth(a) || Truth(b)
  {
    if Truth(a) || Truth(b) {
      assert |Add(a, Wrapped(b)).value.raw| == |a.raw| + |b.raw|;
    }
  }

  /** Implicit conversion to str always fails with the cast error. */
  function Cast(self: Untrusted): (r: Result<string, Error>)
    ensures r.Err? && r.error == CastError
    ensures Message(r.error) == Some(CastErrorMessage)
  {
    Err(CastError)
  }

  /** Two wrappers of any content are indistinguishable through `str()`. */
  lemma CastRevealsNothing(a: Untrusted, b: Untrusted)
    ensures Cast(a) == Cast(b)
  {
  }

  /** The debug representation, which names the length only. */
  function Repr(self: Untrusted): (r: string)
    ensures LengthFromRepr(r) == Some(|self.raw|)
  {
    var digits := Decimal.Render(|self.raw|);
    var r := ReprPrefix + digits + ReprSuffix;
    assert r[..|ReprPrefix|] == ReprPrefix;
    assert r[|ReprPrefix|..|r| - 1] == digits;
    Decimal.ParseRender(|self.raw|);
    r
  }

  /** Reads the length back out of a representation; None for any other text. */
  function LengthFromRepr(r: string): Option<nat> {
    if |r| > |ReprPrefix| + 1
       && r[..|ReprPrefix|] == ReprPrefix
       && r[|r| - 1] == '>'
       && Decimal.AllDigits(r[|ReprPrefix|..|r| - 1])
    then Some(Decimal.Parse(r[|ReprPrefix|..|r| - 1]))
    else None
  }

  /** The representation reveals the length and nothing else: two wrappers
      have the same representation exactly when their texts are equally long. */
  lemma ReprRevealsOnlyLength(a: Untrusted, b: Untrusted)
    ensures Repr(a) == Repr(b) <==> |a.raw| == |b.raw|
  {
    if Repr(a) == Repr(b) {
      assert LengthFromRepr(Repr(a)) == LengthFromRepr(Repr(b));
    }
  }

  /** `reversed(s)`: one wrapper per character, last character first. */
  function Reversed(self: Untrusted): (r: seq<Untrusted>)
    ensures |r| == |self.raw|
    ensures forall k :: 0 <= k < |r| ==> r[k].raw == [self.raw[|self.raw| - 1 - k]]
    decreases |self.raw|
  {
    if |self.raw| == 0 then []
    else
      var last := |self.raw| - 1;
      [Untrusted([self.raw[last]])] + Reversed(Untrusted(self.raw[..last]))
  }

  /** The raw texts of a sequence of wrappers, in order. */
  function Raws(parts: seq<Untrusted>): (r: seq<string>)
    ensures |r| == |parts|
    ensures forall k :: 0 <= k < |parts| ==> r[k] == parts[k].raw
  {
    seq(|parts|, k requires 0 <= k < |parts| => parts[k].raw)
  }

  /** Gluing the one-character wrappers of `reversed(s)` together gives the
      reversed text. */
  lemma ReversedSpellsReverse(self: Untrusted)
    ensures Text.Join("", Raws(Reversed(self))) == Text.Reverse(self.raw)
  {
    var parts := Raws(Reversed(self));
    JoinOfSingles(parts);
  }

  /** Joining one-character strings with "" lays them side by side. */
  lemma {:induction false} JoinOfSingles(parts: seq<string>)
    requires forall k :: 0 <= k < |parts| ==> |parts[k]| == 1
    ensures |Text.Join("", parts)| == |parts|
    ensures forall k :: 0 <= k < |parts| ==> Text.Join("", parts)[k] == parts[k][0]
  {
    if |parts| > 1 {
      JoinOfSingles(parts[1..]);
    }
  }
}

=== FILE: wrappers.dfy ===
/** Failure-compatible result types shared by the other modules. */
module Wrappers {

  /** A value that may be absent. */
  datatype Option<+T> = None | Some(value: T)

  /** Either a value or the error raised instead of producing it. */
  datatype Result<+T, +E> = Ok(value: T) | Err(error: E) {

    predicate IsFailure() {
      Err?
    }

    function PropagateFailure<U>(): Result<U, E>
      requires Err?
    {
      Err(error)
    }

    function Extract(): T
      requires Ok?
    {
      value
    }
  }
}
